=== FILE: README.md ===
# LogCat and ApplicationModule, modelled in Dafny

This project models the two sequential components of the shared Android
library `lib`:

* **`LogCat`**, the logging facade (`lib/src/main/java/com/pop/common/log_ext/LogCat.kt`).
  Its state is a global switch (`enabled`), a location switch (`traceEnabled`),
  a default tag and an ordered hook list. Every level entry point (`v`, `d`,
  `i`, `w`, `e`, `wtf`) forwards to `print`, which runs four steps in order:
  the enabled/null gate, the hook chain (which can only suppress), the trace
  step (location suffix and tag substitution), and the splitter, which cuts
  messages longer than 3800 units into consecutive pieces. `json` composes a
  message around a parsed JSON document and hands it to `print`.
* **`ApplicationModule`**, the write-once `Application` handle
  (`lib/src/main/java/com/pop/common/application_ext/ApplicationModule.kt`).
  The first `init` stores the instance. A read before that, or a second
  `init`, throws `IllegalStateException`.

The platform logger is replaced by the sequence of calls `print` would make
on it. Each call is an `Emission(sink, tag, text, tr)`, and `sink` names the
`android.util.Log` method used. Nothing is global: the facade's state is a
`Config` value passed in, and `addHook`, `removeHook` and `setDebug` return a
new one. A hook is a value of the type parameter `H`, and `==` on `H` stands
for `equals`, by which `logHooks.remove(hook)` (LogCat.kt:73) finds the hook;
that is identity unless `LogHook` overrides `equals`. What a hook does to the
`LogInfo` record is a total function `apply`.

Files:

| file | module | contents |
|---|---|---|
| `optional.dfy` | `Optional` | `Option`, standing in for Kotlin's nullable types |
| `text.dfy` | `Text` | joining pieces, `Int.toString()`, `substringBefore`, `isBlank` |
| `chunking.dfy` | `Chunking` | the 3800-unit splitter: reference `Split` and the loop `SplitLoop` |
| `log_cat.dfy` | `LogCat` | levels and sinks, configuration, hooks, trace step, `print`, entry points |
| `log_json.dfy` | `LogJson` | the `json` entry point |
| `application_module.dfy` | `ApplicationModule` | the write-once cell and runs of `init`/read calls |

Behaviour of the code worth knowing, which the model follows:

* The tag is replaced only when it equals the literal `"Logger"`
  (LogCat.kt:187), not the configured default. So a call that passes
  `"Logger"` explicitly is substituted, and a call whose default was changed
  by `setDebug` is not. `LogCat.Decorate`, `LogCat.Log` and
  `LogCat.SetDebugDefaultTag` state this.
* A stack-trace element's file name is null when the class carries no
  source-file information. The location is then written with the text
  `null` in its place. If the tag is `"Logger"`, taking
  `substringBefore('.')` of that null file name (LogCat.kt:188) throws a
  `NullPointerException` out of `print`, and so out of every level entry
  point. `print`'s result is therefore either the platform calls it made or
  `NullPointer`. `LogCat.Decorate`, `LogCat.Print` and
  `LogCat.PrintNullFileName` state this.
* In `json`, `occurredMsg` is written ` (File.kt:42)`, without the `...`.
  It is the text `null` when tracing is on, a marker is given, and its stack
  has no frame 1 (LogCat.kt:231-236). `json` passes no marker to `print`, so
  `print` never throws for it. Only the tokenizer call is inside the `try`
  (LogCat.kt:241-245): an object or array that `toString(2)` cannot render
  (LogCat.kt:248-249) throws out of `json` before anything is printed. `LogJson.OccurredMsg`, `LogJson.Json` and
  `LogJson.JsonMissingFrameQuirk` state this.

The splitter's loop resets `endIndex` with `min(length, endIndex)` on every
iteration. The loop invariant of `Chunking.SplitLoop`
(`startIndex < length ==> endIndex == startIndex + 3800`) shows that the
clamp changes only the last piece. Every earlier piece is a full 3800 units.

## Model

| member | source | states |
|---|---|---|
| `ApplicationModule.Message` | lib/src/main/java/com/pop/common/application_ext/ApplicationModule.kt:23-31 | both exception texts begin "Application instance " and differ in the word after "is" |
| `ApplicationModule.FailureMessages` | lib/src/main/java/com/pop/common/application_ext/ApplicationModule.kt:19-32 | a failed read reports "not initialized", a failed write "already initialized", and the text identifies the failure |
| `ApplicationModule.Get` | lib/src/main/java/com/pop/common/application_ext/ApplicationModule.kt:19-25 | a read never changes the state; it throws "not initialized" exactly when nothing was stored, otherwise it returns the stored instance |
| `ApplicationModule.Init` | lib/src/main/java/com/pop/common/application_ext/ApplicationModule.kt:12-33 | `init` succeeds exactly on the unset cell; a second `init` throws "already initialized" and leaves the cell as it was; afterwards a read returns the first instance |
| `ApplicationModule.WriteOnce` | lib/src/main/java/com/pop/common/application_ext/ApplicationModule.kt:12-33 | over any run of calls from the start, the earliest `init` fixes the instance; earlier reads throw, later reads return it, later `init`s throw |
| `ApplicationModule.SetIsFinal` | lib/src/main/java/com/pop/common/application_ext/ApplicationModule.kt:27-32 | once set, no run of calls changes the instance; every read returns it, every `init` throws |
| `ApplicationModule.ReadsIdempotent` | lib/src/main/java/com/pop/common/application_ext/ApplicationModule.kt:19-25 | any number of reads leave the state unchanged and all return the same outcome |
| `Text.IntDecimalRoundTrip` | lib/src/main/java/com/pop/common/log_ext/LogCat.kt:186 | the line number written into the location suffix reads back as the same number, minus sign included |
| `Text.IntToDecimal` | lib/src/main/java/com/pop/common/log_ext/LogCat.kt:186 | `$lineNumber`: a minus sign exactly for negative numbers, then the decimal digits of the magnitude, with no leading zero |
| `Text.WhitespaceTable` | lib/src/main/java/com/pop/common/log_ext/LogCat.kt:235 | `Char.isWhitespace` is Java's `isWhitespace` or `isSpaceChar`: no-break spaces are whitespace, NEXT LINE and ZERO WIDTH SPACE are not |
| `Text.IsBlank` | lib/src/main/java/com/pop/common/log_ext/LogCat.kt:235 | `isBlank()` holds exactly when every character is whitespace, the empty string included |
| `Text.SubstringBefore` | lib/src/main/java/com/pop/common/log_ext/LogCat.kt:188 | the result is the prefix of the file name up to the first `.`, or the whole name when it has no `.` |
| `Chunking.SplitLoop` | lib/src/main/java/com/pop/common/log_ext/LogCat.kt:196-204 | the index loop, with `endIndex` one step ahead of `startIndex` until the final clamp, cuts exactly the reference pieces of a message over 3800 units |
| `Chunking.SplitStep` | lib/src/main/java/com/pop/common/log_ext/LogCat.kt:198-203 | one iteration: the clamped piece at `startIndex` followed by the pieces from `startIndex + 3800` are the pieces of the rest of the message |
| `Chunking.ChunkMessage` | lib/src/main/java/com/pop/common/log_ext/LogCat.kt:192-208 | the pieces join back to the message; a message of at most 3800 units is one piece, unchanged; a longer one gives ceil(length/3800) pieces, all of 3800 units but the last, which has 1 to 3800 |
| `Chunking.SplitConcat` | lib/src/main/java/com/pop/common/log_ext/LogCat.kt:196-204 | the pieces, joined in order, give back the message |
| `Chunking.SplitCount` | lib/src/main/java/com/pop/common/log_ext/LogCat.kt:192-207 | one piece when the message fits, else ceil(length/3800) pieces |
| `Chunking.SplitSizes` | lib/src/main/java/com/pop/common/log_ext/LogCat.kt:196-204 | every piece but the last is exactly 3800 units long; the last is at most 3800 and is empty only for an empty message |
| `Chunking.SplitBoundaries` | lib/src/main/java/com/pop/common/log_ext/LogCat.kt:192-207 | 3800 units go out as one piece, 3801 as a full piece and one unit, 7600 as exactly two full pieces |
| `LogCat.SinkFor` | lib/src/main/java/com/pop/common/log_ext/LogCat.kt:256-265 | each level goes to its own platform method: the level can be read back from the sink |
| `LogCat.SinkForOnto` | lib/src/main/java/com/pop/common/log_ext/LogCat.kt:256-265 | every platform method is used by some level, so the mapping is one-to-one and onto |
| `LogCat.SetDebug` | lib/src/main/java/com/pop/common/log_ext/LogCat.kt:56-59 | sets the switch and, when given, the default tag; an absent tag keeps the current one; tracing and hooks are unchanged |
| `LogCat.AddHook` | lib/src/main/java/com/pop/common/log_ext/LogCat.kt:65-67 | the hook is appended after the existing ones, which keep their order; nothing else changes |
| `LogCat.RemoveFirst` | lib/src/main/java/com/pop/common/log_ext/LogCat.kt:72-74 | an absent element leaves the list unchanged; a present one shortens it by exactly one |
| `LogCat.FirstIndex` | lib/src/main/java/com/pop/common/log_ext/LogCat.kt:72-74 | locates the first registration of a hook: it is there and not earlier |
| `LogCat.RemoveFirstAt` | lib/src/main/java/com/pop/common/log_ext/LogCat.kt:72-74 | removal takes out the first registration and keeps the others in order |
| `LogCat.RemoveFirstMultiset` | lib/src/main/java/com/pop/common/log_ext/LogCat.kt:72-74 | removal takes away one copy of the hook, if there is one, and nothing else |
| `LogCat.RemoveHook` | lib/src/main/java/com/pop/common/log_ext/LogCat.kt:72-74 | the hook list loses its first registration of the hook; switches and tag are unchanged |
| `LogCat.AddThenRemove` | lib/src/main/java/com/pop/common/log_ext/LogCat.kt:65-74 | removing a newly added, previously absent hook restores the configuration |
| `LogCat.AddRemoveCommute` | lib/src/main/java/com/pop/common/log_ext/LogCat.kt:65-74 | for a hook already registered, add-then-remove equals remove-then-add |
| `LogCat.RemoveFirstAppend` | lib/src/main/java/com/pop/common/log_ext/LogCat.kt:65-74 | removing from a list with the hook appended takes the earlier registration when there is one, else the appended one |
| `LogCat.RunHooks` | lib/src/main/java/com/pop/common/log_ext/LogCat.kt:178-182 | a suppression is always attributed to a hook in the list |
| `LogCat.RunHooksFirstSuppressor` | lib/src/main/java/com/pop/common/log_ext/LogCat.kt:178-182 | hooks run in list order, each on the record as the previous ones left it; the chain stops at the first hook that nulls the message; if none does, every hook ran |
| `LogCat.RunHooksAppend` | lib/src/main/java/com/pop/common/log_ext/LogCat.kt:179-182 | hooks after a suppressing one are never consulted; otherwise the later hooks continue from the record the earlier ones produced |
| `LogCat.LocationSuffix` | lib/src/main/java/com/pop/common/log_ext/LogCat.kt:186 | the suffix holds the file name (or "null") between ` ...(` and `:`, and a line number that reads back as the frame's own |
| `LogCat.Decorate` | lib/src/main/java/com/pop/common/log_ext/LogCat.kt:184-191 | the suffix ` ...(file:line)` is appended exactly when tracing is on and a caller frame exists; the tag changes only if it is literally "Logger", and then becomes the file name up to its first dot; that step fails exactly when the file name is null |
| `LogCat.BaseNameTag` | lib/src/main/java/com/pop/common/log_ext/LogCat.kt:188 | a file name `base.ext` whose base has no dot gives the tag `base` |
| `LogCat.DecorateExample` | lib/src/main/java/com/pop/common/log_ext/LogCat.kt:184-191 | a call from line 42 of `MainActivity.kt` tagged "Logger" is re-tagged "MainActivity" and gets the location appended; other tags are kept |
| `LogCat.Emit` | lib/src/main/java/com/pop/common/log_ext/LogCat.kt:198-201 | one platform call per piece, in order, all with the same sink, tag and throwable |
| `LogCat.Print` | lib/src/main/java/com/pop/common/log_ext/LogCat.kt:166-209 | nothing is emitted exactly when logging is off, the message is null, or a hook suppresses it; it throws exactly when the trace step fails; every emission uses the call's level and throwable and fits 3800 units; the emissions share the decorated tag and join back to the decorated message |
| `LogCat.PrintNullFileName` | lib/src/main/java/com/pop/common/log_ext/LogCat.kt:184-191 | with a caller frame lacking a file name, `print` throws exactly under the tag "Logger"; under any other tag it emits the message with ` ...(null:line)` |
| `LogCat.HooksOnlySuppress` | lib/src/main/java/com/pop/common/log_ext/LogCat.kt:175-188 | whatever a side-effect-free hook returns, `print` emits nothing or does exactly what it does with no hooks: hooks cannot change text or tag |
| `LogCat.PrintReassembles` | lib/src/main/java/com/pop/common/log_ext/LogCat.kt:192-207 | emitted pieces are full 3800-unit pieces except the last, and number one or ceil(length/3800) of the decorated message |
| `LogCat.PrintShortMessage` | lib/src/main/java/com/pop/common/log_ext/LogCat.kt:206-207 | a decorated message of at most 3800 units is emitted once, unchanged |
| `LogCat.Log` | lib/src/main/java/com/pop/common/log_ext/LogCat.kt:79-155 | every emission uses the entry point's level and throwable; a tag (given or default) other than "Logger" is never substituted and never throws; without a caller frame the pieces join to the message itself |
| `LogCat.ErrorOf` | lib/src/main/java/com/pop/common/log_ext/LogCat.kt:135-144 | the throwable overload of `e` emits only on the error sink, with the given throwable |
| `LogCat.SetDebugDisables` | lib/src/main/java/com/pop/common/log_ext/LogCat.kt:56-59 | after `setDebug(false, …)` no entry point emits anything, whatever the call |
| `LogCat.SetDebugDefaultTag` | lib/src/main/java/com/pop/common/log_ext/LogCat.kt:56-59 | after `setDebug(e, t)` with `t` other than "Logger", a call using the default tag is emitted under `t` and does not throw |
| `LogCat.InitialFileTag` | lib/src/main/java/com/pop/common/log_ext/LogCat.kt:41-50 | out of the box (on, tracing, tag "Logger", no hooks) a default-tag call from `base.kt` goes out under the tag `base`, with the location appended |
| `LogJson.OccurredMsg` | lib/src/main/java/com/pop/common/log_ext/LogCat.kt:231-233 | empty exactly when tracing is off or no marker is given; ` (file:line)` with a caller frame; the text "null" when the frame is missing |
| `LogJson.JsonText` | lib/src/main/java/com/pop/common/log_ext/LogCat.kt:235-253 | for a document that renders, the composed text is `msg`, the location, a line break, then the blank document itself or the rendered body |
| `LogJson.Json` | lib/src/main/java/com/pop/common/log_ext/LogCat.kt:220-254 | nothing when off or null; throws exactly when logging is on and a non-blank document parses to something `toString(2)` cannot render; otherwise `print` does not throw, every emission has the given level, no throwable and the unsubstituted tag, and the pieces join to the composed text |
| `LogJson.JsonIsUntracedPrint` | lib/src/main/java/com/pop/common/log_ext/LogCat.kt:236-253 | `json` emits what `print` emits for the composed text with tracing off, so there is no second location |
| `LogJson.JsonParseError` | lib/src/main/java/com/pop/common/log_ext/LogCat.kt:240-253 | a document the tokenizer rejects is logged with the body "Parse json error" |
| `LogJson.JsonBlankSkipsParser` | lib/src/main/java/com/pop/common/log_ext/LogCat.kt:235-238 | a blank document is never parsed: the output does not depend on the parser |
| `LogJson.JsonMissingFrameQuirk` | lib/src/main/java/com/pop/common/log_ext/LogCat.kt:231-236 | with tracing on and a marker without a caller frame, the text starts with msg followed by "null" and a line break |

## Left out

- `android.util.Log` itself (LogCat.kt:256-265): each platform call becomes an `Emission` record naming the method.
- `msg.toString()` on arbitrary objects (LogCat.kt:176, 229): a message is given already as its string, or absent for null.
- `org.json` tokenizing and 2-space pretty-printing (LogCat.kt:240-251): a foreign library. The tokenizer is a parameter returning object, array, other value (with their renderings) or failure.
- Stack-trace introspection (`occurred.stackTrace.getOrNull(1)`): the marker is an input carrying the optional caller frame `(fileName, lineNumber)`, with a possibly null file name.
- The exception class for a null file name: the model says only that `print` throws. Kotlin's inserted null check raises `NullPointerException` from Kotlin 1.4 on, and `IllegalStateException` before that. Creating the default `Exception()` at the call site is left to the caller of the model.
- `synchronized(this)` around the splitter, and all thread-safety questions for both components: the model is sequential.
- Hooks that throw, or that keep their own state across calls: a hook is a pure, total function of the record. `LogInfo` and `LogHook` are not part of this model beyond the fields `print` passes and reads.
- Text, Chunking: Dafny's `char` is a Unicode scalar value, not a UTF-16 unit. The model covers only messages whose characters are all at or below U+FFFF. A character above U+FFFF is one `char` here but two units of Kotlin's `length`, so for such text the piece count and the piece boundaries differ from the source's.
- Which documents `org.json` cannot render: `Parsed.Unrenderable` is the tokenizer's answer for them (for example an array holding `NaN`), and `json` then throws `JSONException`; the rules of `org.json` that decide it are a foreign library.
- Chunking.SplitLoop: does not model 32-bit `Int` overflow of `startIndex += 3800` and `endIndex += 3800`, which can only happen for messages within 3800 units of `Int.MAX_VALUE` in length.
- LogCat.ErrorOf: the default argument `msg = ""` is passed explicitly by the caller of the model, as `Some("")`.
- Default arguments in general: `json`'s `msg = ""` (LogCat.kt:223) and `type = Type.INFO` (LogCat.kt:224), and the entry points' `tr = null` (for example LogCat.kt:84), are supplied by the caller of `LogJson.Json` and `LogCat.Log`.
- LogCat.HooksOnlySuppress: holds only for hooks that neither mutate the shared `occurred` throwable (for example through `setStackTrace` or `fillInStackTrace`) nor write `LogCat.traceEnabled`. `print` reads both after the hooks have run (LogCat.kt:184-185), and the model's hooks are pure functions of the record.
- `@JvmOverloads`/`@JvmStatic` overload generation and the lazy creation of the hook list: no behaviour of their own.
- `app/src/main/java/com/pop/popview/MainActivity.kt` (UI only) and `lib/src/main/java/com/pop/toolslib/application_ext/ApplicationExt.kt` (lifecycle glue that only calls `init`) are not part of this model.

=== FILE: application_module.dfy ===
/**
 `ApplicationModule`: the process-wide `Application` handle, a `lateinit`
 property whose setter refuses a second write and whose getter refuses a read
 before the first. The handle type is a parameter `A`.
 */
module ApplicationModule {
  import opened Optional

  /** The `lateinit var mApplication`: not yet initialised, or holding the instance. */
  datatype Cell<A> = Unset | Set(instance: A)

  /** The two `IllegalStateException`s the property can throw. */
  datatype IllegalState = NotInitialized | AlreadyInitialized

  /** The exception message of each failure; the two messages tell the failures apart. */
  function Message(e: IllegalState): (text: string)
    ensures |text| > 25 && text[..21] == "Application instance "
    ensures text[21..25] == (if e == NotInitialized then "is n" else "is a")
  {
    match e
    case NotInitialized => "Application instance is not initialized."
    case AlreadyInitialized => "Application instance is already initialized."
  }

  /** What an access returned: nothing (a successful write), the instance, or an exception. */
  datatype Outcome<A> = Done | Value(instance: A) | Thrown(error: IllegalState)

  /** The state after an access, and its outcome. */
  datatype Access<A> = Access(cell: Cell<A>, outcome: Outcome<A>)

  /** The `application` getter: the stored instance, or an exception before any write. */
  function Get<A>(c: Cell<A>): (r: Access<A>)
    ensures r.cell == c
    ensures r.outcome.Thrown? <==> c.Unset?
    ensures r.outcome.Thrown? ==> r.outcome.error == NotInitialized
    ensures c.Set? ==> r.outcome == Value(c.instance)
  {
    match c
    case Unset => Access(c, Thrown(NotInitialized))
    case Set(a) => Access(c, Value(a))
  }

  /**
   `init(application)`, which goes through the `application` setter: the first
   write stores the instance; any later one throws and leaves the stored
   instance in place.
   */
  function Init<A>(c: Cell<A>, a: A): (r: Access<A>)
    ensures r.outcome.Thrown? <==> c.Set?
    ensures r.outcome.Thrown? ==> r.outcome.error == AlreadyInitialized && r.cell == c
    ensures r.outcome == Done <==> c.Unset?
    ensures Get(r.cell).outcome == Value(if c.Unset? then a else c.instance)
  {
    match c
    case Unset => Access(Set(a), Done)
    case Set(_) => Access(c, Thrown(AlreadyInitialized))
  }

  /**
   The message a caller sees from a failed access names the failure: a read of
   an unset cell reports "not initialized", a second write "already initialized",
   and no other text is shared between the two cases.
   */
  lemma FailureMessages<A>(c: Cell<A>, a: A)
    ensures Get(c).outcome.Thrown? ==> Message(Get(c).outcome.error) == "Application instance is not initialized."
    ensures Init(c, a).outcome.Thrown? ==> Message(Init(c, a).outcome.error) == "Application instance is already initialized."
    ensures forall e: IllegalState, f: IllegalState :: Message(e) == Message(f) <==> e == f
  {
  }

  /** A call on the module: `init(a)` or a read of `application`. */
  datatype Op<A> = InitOp(arg: A) | GetOp

  function Step<A>(c: Cell<A>, op: Op<A>): Access<A>
  {
    match op
    case InitOp(a) => Init(c, a)
    case GetOp => Get(c)
  }

  /** The state after a run of calls, and what each call returned. */
  datatype Trace<A> = Trace(cell: Cell<A>, outcomes: seq<Outcome<A>>)

  /** Runs the calls in order from state `c`. */
  function Run<A>(c: Cell<A>, ops: seq<Op<A>>): (t: Trace<A>)
    ensures |t.outcomes| == |ops|
    decreases |ops|
  {
    if |ops| == 0 then Trace(c, [])
    else
      var before := Run(c, ops[..|ops| - 1]);
      var last := Step(before.cell, ops[|ops| - 1]);
      Trace(last.cell, before.outcomes + [last.outcome])
  }

  /** Reference: the argument of the earliest `init` in a run of calls, if any. */
  function FirstInit<A>(ops: seq<Op<A>>): Option<A>
    decreases |ops|
  {
    if |ops| == 0 then None
    else if ops[0].InitOp? then Some(ops[0].arg)
    else FirstInit(ops[1..])
  }

  /** Appending a call changes the earliest `init` only when there was none. */
  lemma {:induction false} FirstInitSnoc<A>(ops: seq<Op<A>>, op: Op<A>)
    ensures FirstInit(ops + [op]) ==
      if FirstInit(ops).Some? then FirstInit(ops)
      else if op.InitOp? then Some(op.arg)
      else None
    decreases |ops|
  {
    if |ops| == 0 {
      assert ops + [op] == [op];
    } else {
      assert (ops + [op])[1..] == ops[1..] + [op];
      FirstInitSnoc(ops[1..], op);
    }
  }

  /** The state a run from `Unset` ends in, read off the earliest `init`. */
  function Settled<A>(first: Option<A>): Cell<A>
  {
    match first
    case None => Unset
    case Some(a) => Set(a)
  }

  /**
   The write-once behaviour over any run of calls from the uninitialised state:
   the earliest `init` decides the instance for good; before it every read
   throws "not initialized"; after it every read returns that instance and
   every further `init` throws "already initialized".
   */
  lemma {:induction false} WriteOnce<A>(ops: seq<Op<A>>)
    ensures Run(Unset, ops).cell == Settled(FirstInit(ops))
    ensures forall i :: 0 <= i < |ops| && ops[i].GetOp? ==>
      Run(Unset, ops).outcomes[i] ==
        (if FirstInit(ops[..i]).Some? then Value(FirstInit(ops[..i]).value) else Thrown(NotInitialized))
    ensures forall i :: 0 <= i < |ops| && ops[i].InitOp? ==>
      Run(Unset, ops).outcomes[i] == (if FirstInit(ops[..i]).Some? then Thrown(AlreadyInitialized) else Done)
    decreases |ops|
  {
    if |ops| > 0 {
      var n := |ops| - 1;
      var prefix := ops[..n];
      WriteOnce(prefix);
      FirstInitSnoc(prefix, ops[n]);
      assert prefix + [ops[n]] == ops;
      forall i | 0 <= i < n
        ensures ops[..i] == prefix[..i]
      {
      }
    }
  }

  /** Once set, nothing a caller does changes the instance, and every read returns it. */
  lemma {:induction false} SetIsFinal<A>(a: A, ops: seq<Op<A>>)
    ensures Run(Set(a), ops).cell == Set(a)
    ensures forall i :: 0 <= i < |ops| ==>
      Run(Set(a), ops).outcomes[i] == (if ops[i].GetOp? then Value(a) else Thrown(AlreadyInitialized))
    decreases |ops|
  {
    if |ops| > 0 {
      SetIsFinal(a, ops[..|ops| - 1]);
    }
  }

  /** Reads are idempotent: any number of them leave the state alone and all agree. */
  lemma {:induction false} ReadsIdempotent<A>(c: Cell<A>, ops: seq<Op<A>>)
    requires forall i :: 0 <= i < |ops| ==> ops[i] == GetOp
    ensures Run(c, ops).cell == c
    ensures forall i :: 0 <= i < |ops| ==> Run(c, ops).outcomes[i] == Get(c).outcome
    decreases |ops|
  {
    if |ops| > 0 {
      ReadsIdempotent(c, ops[..|ops| - 1]);
    }
  }
}

=== FILE: chunking.dfy ===
/**
 The splitter at the end of `LogCat.print`: a message longer than the platform
 logger's line budget is handed over in consecutive pieces of `MaxChunk` units.
 */
module Chunking {
  import opened Text

  /** The `max` of `print`: the longest text handed to one platform call. */
  const MaxChunk: nat := 3800

  /**
   Reference definition of the pieces `print` emits for a final message: the
   message itself when it fits, otherwise a full piece followed by the pieces
   of the rest.
   */
  function Split(message: string): seq<string>
    decreases |message|
  {
    if |message| <= MaxChunk then [message]
    else [message[..MaxChunk]] + Split(message[MaxChunk..])
  }

  /** Number of pieces of `size` needed to cover `n` units, rounding up. */
  function CeilDiv(n: nat, size: nat): nat
    requires size > 0
  {
    (n + size - 1) / size
  }

  function Min(a: int, b: int): int
  {
    if a <= b then a else b
  }

  /** The pieces, joined in order, give back the message unit for unit. */
  lemma {:induction false} SplitConcat(message: string)
    ensures Concat(Split(message)) == message
    decreases |message|
  {
    if |message| > MaxChunk {
      SplitConcat(message[MaxChunk..]);
      assert Split(message)[1..] == Split(message[MaxChunk..]);
      assert message == message[..MaxChunk] + message[MaxChunk..];
    }
  }

  /** One piece for a message that fits (even an empty one), else ceil(length / 3800). */
  lemma {:induction false} SplitCount(message: string)
    ensures |Split(message)| == if |message| <= MaxChunk then 1 else CeilDiv(|message|, MaxChunk)
    decreases |message|
  {
    if |message| > MaxChunk {
      SplitCount(message[MaxChunk..]);
    }
  }

  /**
   Every piece but the last is exactly `MaxChunk` long; the last fits the
   budget and is empty only when the whole message is.
   */
  lemma {:induction false} SplitSizes(message: string)
    ensures |Split(message)| >= 1
    ensures forall i :: 0 <= i < |Split(message)| - 1 ==> |Split(message)[i]| == MaxChunk
    ensures |Split(message)[|Split(message)| - 1]| <= MaxChunk
    ensures |message| > 0 ==> |Split(message)[|Split(message)| - 1]| >= 1
    decreases |message|
  {
    if |message| > MaxChunk {
      var rest := Split(message[MaxChunk..]);
      SplitSizes(message[MaxChunk..]);
      assert Split(message) == [message[..MaxChunk]] + rest;
      forall i | 1 <= i < |Split(message)| - 1
        ensures |Split(message)[i]| == MaxChunk
      {
        assert Split(message)[i] == rest[i - 1];
      }
    }
  }

  /** The reference pieces of the part of the message from `start` on (none past its end). */
  function PiecesFrom(message: string, start: nat): seq<string>
  {
    if start < |message| then Split(message[start..]) else []
  }

  /**
   One turn of the splitting loop: the pieces from `start` on are the piece the
   loop cuts (clamped to the end of the message) followed by the pieces from
   the next start.
   */
  lemma SplitStep(message: string, start: nat)
    requires start < |message|
    ensures PiecesFrom(message, start) ==
      [message[start..Min(|message|, start + MaxChunk)]] + PiecesFrom(message, start + MaxChunk)
  {
    var piece := message[start..Min(|message|, start + MaxChunk)];
    if |message| - start > MaxChunk {
      assert message[start..][..MaxChunk] == piece;
      assert message[start..][MaxChunk..] == message[start + MaxChunk..];
    } else {
      assert message[start..] == piece;
    }
  }

  /** Everything the splitter promises, read off the reference pieces. */
  lemma {:induction false} SplitFacts(message: string)
    ensures Concat(Split(message)) == message
    ensures |message| <= MaxChunk ==> Split(message) == [message]
    ensures |message| > MaxChunk ==> |Split(message)| == CeilDiv(|message|, MaxChunk)
    ensures forall i :: 0 <= i < |Split(message)| ==> |Split(message)[i]| <= MaxChunk
    ensures forall i :: 0 <= i < |Split(message)| - 1 ==> |Split(message)[i]| == MaxChunk
    ensures |message| > 0 ==> forall i :: 0 <= i < |Split(message)| ==> |Split(message)[i]| > 0
  {
    SplitConcat(message);
    SplitSizes(message);
    SplitCount(message);
  }

  /**
   The boundary cases: 3800 units go out as one piece, 3801 as a full piece and
   a single unit, 7600 as exactly two full pieces.
   */
  lemma SplitBoundaries(message: string)
    ensures |message| == MaxChunk ==> Split(message) == [message]
    ensures |message| == MaxChunk + 1 ==>
      |Split(message)| == 2 && |Split(message)[0]| == MaxChunk && |Split(message)[1]| == 1
    ensures |message| == 2 * MaxChunk ==>
      |Split(message)| == 2 && |Split(message)[0]| == MaxChunk && |Split(message)[1]| == MaxChunk
  {
  }

  /**
   The splitting loop as `print` runs it on a message over the budget:
   `startIndex` walks in steps of `MaxChunk`, and `endIndex` is always one step
   ahead of it until the final `min` clamps the last piece to the end of the
   message.
   */
  method SplitLoop(message: string) returns (chunks: seq<string>)
    requires |message| > MaxChunk
    ensures chunks == Split(message)
  {
    var length := |message|;
    chunks := [];
    var startIndex: nat := 0;
    var endIndex := MaxChunk;
    assert message[startIndex..] == message;
    while startIndex < length
      invariant startIndex < length ==> endIndex == startIndex + MaxChunk
      invariant Split(message) == chunks + PiecesFrom(message, startIndex)
      decreases length - startIndex
    {
      SplitStep(message, startIndex);
      endIndex := Min(length, endIndex);
      var piece := message[startIndex..endIndex];
      assert chunks + ([piece] + PiecesFrom(message, startIndex + MaxChunk)) ==
        (chunks + [piece]) + PiecesFrom(message, startIndex + MaxChunk);
      chunks := chunks + [piece];
      startIndex := startIndex + MaxChunk;
      endIndex := endIndex + MaxChunk;
    }
    assert PiecesFrom(message, startIndex) == [];
  }

  /**
   The tail of `print`: a message within the budget goes out whole, a longer
   one through the splitting loop.
   */
  method ChunkMessage(message: string) returns (chunks: seq<string>)
    ensures chunks == Split(message)
    ensures Concat(chunks) == message
    ensures |message| <= MaxChunk ==> chunks == [message]
    ensures |message| > MaxChunk ==> |chunks| == CeilDiv(|message|, MaxChunk)
    ensures forall i :: 0 <= i < |chunks| ==> |chunks[i]| <= MaxChunk
    ensures forall i :: 0 <= i < |chunks| - 1 ==> |chunks[i]| == MaxChunk
    ensures |message| > 0 ==> forall i :: 0 <= i < |chunks| ==> |chunks[i]| > 0
  {
    if |message| > MaxChunk {
      chunks := SplitLoop(message);
    } else {
      chunks := [message];
    }
    SplitFacts(message);
  }
}

=== FILE: log_cat.dfy ===
/**
 `LogCat`, the logging facade: a configuration (global switch, location
 tracing, default tag, hook list) and the `print` pipeline every level entry
 point forwards to. The platform logger is replaced by the sequence of calls
 `print` would make on it, one `Emission` per call.
 */
module LogCat {
  import opened Optional
  import opened Text
  import opened Chunking

  // ---------------------------------------------------------------------------
  // Levels and the platform sink
  // ---------------------------------------------------------------------------

  /** `LogCat.Type`. */
  datatype Level = Verbose | Debug | Info | Warn | Error | Wtf

  /** The six `android.util.Log` entry points `log` chooses between. */
  datatype Sink = LogV | LogD | LogI | LogW | LogE | LogWtf

  /** `log`: each level goes to its own platform entry point. */
  function SinkFor(level: Level): (sink: Sink)
    ensures LevelOf(sink) == level
  {
    match level
    case Verbose => LogV
    case Debug => LogD
    case Info => LogI
    case Warn => LogW
    case Error => LogE
    case Wtf => LogWtf
  }

  /** The level a platform entry point stands for. */
  function LevelOf(sink: Sink): Level
  {
    match sink
    case LogV => Verbose
    case LogD => Debug
    case LogI => Info
    case LogW => Warn
    case LogE => Error
    case LogWtf => Wtf
  }

  /** Every platform entry point is used by exactly one level. */
  lemma SinkForOnto(sink: Sink)
    ensures SinkFor(LevelOf(sink)) == sink
  {
  }

  // ---------------------------------------------------------------------------
  // Records
  // ---------------------------------------------------------------------------

  /** A `Throwable`, known only by identity. */
  datatype Throwable = Throwable(id: nat)

  /**
   A stack-trace element: source file name and line number. The file name is
   null when the class carries no source-file information.
   */
  datatype Frame = Frame(fileName: Option<string>, lineNumber: int)

  /**
   The `occurred` marker of a log call: an exception captured at the call site,
   of which only the frame at index 1 of its stack trace (the caller) is ever
   read, and which may be missing.
   */
  datatype Occurrence = Occurrence(caller: Option<Frame>)

  /** `LogInfo`: what the hooks see, and may change, before anything is emitted. */
  datatype LogInfo = LogInfo(level: Level, msg: Option<string>, tag: string, tr: Option<Throwable>, occurred: Option<Occurrence>)

  /** One call on the platform logger: `Log.x(tag, msg, tr)`. */
  datatype Emission = Emission(sink: Sink, tag: string, text: string, tr: Option<Throwable>)

  /** The arguments of one `print`, with `msg` already turned into its string. */
  datatype Call = Call(level: Level, msg: Option<string>, tag: string, tr: Option<Throwable>, occurred: Option<Occurrence>)

  /**
   The facade's mutable state: `enabled`, `traceEnabled`, the default `tag`, and
   the hook list in registration order. A hook is a value of `H`, compared by
   `H`'s `==` as `ArrayList.remove` compares by `equals`; what a hook does is
   given separately as `apply`.
   */
  datatype Config<H> = Config(enabled: bool, traceEnabled: bool, tag: string, hooks: seq<H>)

  /** The tag `print` compares against before substituting the caller's file name. */
  const SentinelTag: string := "Logger"

  /** The state at class initialisation: on, tracing, tag "Logger", no hooks. */
  function Initial<H>(): Config<H>
  {
    Config(true, true, SentinelTag, [])
  }

  // ---------------------------------------------------------------------------
  // setDebug, addHook, removeHook
  // ---------------------------------------------------------------------------

  /** `setDebug(enabled, tag)`; `tag` absent stands for the default argument, the current tag. */
  function SetDebug<H>(cfg: Config<H>, enabled: bool, tag: Option<string>): (r: Config<H>)
    ensures r.enabled == enabled
    ensures r.tag == (if tag.Some? then tag.value else cfg.tag)
    ensures r.traceEnabled == cfg.traceEnabled && r.hooks == cfg.hooks
  {
    cfg.(enabled := enabled, tag := if tag.Some? then tag.value else cfg.tag)
  }

  /** `addHook`: the hook joins the end of the list; duplicates are kept. */
  function AddHook<H>(cfg: Config<H>, hook: H): (r: Config<H>)
    ensures |r.hooks| == |cfg.hooks| + 1
    ensures r.hooks[..|cfg.hooks|] == cfg.hooks && r.hooks[|cfg.hooks|] == hook
    ensures r.enabled == cfg.enabled && r.traceEnabled == cfg.traceEnabled && r.tag == cfg.tag
  {
    cfg.(hooks := cfg.hooks + [hook])
  }

  /** `ArrayList.remove(Object)`: drops the first element equal to `x`, if any. */
  function RemoveFirst<T(==)>(s: seq<T>, x: T): (r: seq<T>)
    ensures x !in s ==> r == s
    ensures |r| == if x in s then |s| - 1 else |s|
    decreases |s|
  {
    if |s| == 0 then s
    else if s[0] == x then s[1..]
    else [s[0]] + RemoveFirst(s[1..], x)
  }

  /** Position of the first `x` in `s`. */
  function FirstIndex<T(==)>(s: seq<T>, x: T): (i: nat)
    requires x in s
    ensures i < |s| && s[i] == x && x !in s[..i]
    decreases |s|
  {
    if s[0] == x then 0
    else
      var i := 1 + FirstIndex(s[1..], x);
      assert s[..i] == [s[0]] + s[1..][..i - 1];
      i
  }

  /** Exactly the first occurrence is the one removed; the order of the others is kept. */
  lemma {:induction false} RemoveFirstAt<T>(s: seq<T>, x: T)
    requires x in s
    ensures RemoveFirst(s, x) == s[..FirstIndex(s, x)] + s[FirstIndex(s, x) + 1..]
    decreases |s|
  {
    var i := FirstIndex(s, x);
    if s[0] == x {
      assert i == 0;
      assert s[..0] + s[1..] == s[1..];
    } else {
      var t := s[1..];
      assert x in t;
      var j := FirstIndex(t, x);
      assert i == j + 1;
      RemoveFirstAt(t, x);
      assert RemoveFirst(s, x) == [s[0]] + (t[..j] + t[j + 1..]);
      assert s[..i] == [s[0]] + t[..j];
      assert s[i + 1..] == t[j + 1..];
    }
  }

  /** Removal takes away one copy of `x`, when there is one, and nothing else. */
  lemma {:induction false} RemoveFirstMultiset<T>(s: seq<T>, x: T)
    ensures multiset(RemoveFirst(s, x)) == multiset(s) - multiset{x}
    decreases |s|
  {
    if |s| > 0 {
      assert s == [s[0]] + s[1..];
      if s[0] != x {
        RemoveFirstMultiset(s[1..], x);
      }
    }
  }

  /** `removeHook`: the first registration of the hook goes; nothing else changes. */
  function RemoveHook<H(==)>(cfg: Config<H>, hook: H): (r: Config<H>)
    ensures r.hooks == RemoveFirst(cfg.hooks, hook)
    ensures r.enabled == cfg.enabled && r.traceEnabled == cfg.traceEnabled && r.tag == cfg.tag
  {
    cfg.(hooks := RemoveFirst(cfg.hooks, hook))
  }

  /** Removing a hook just added undoes the addition when it was not registered before. */
  lemma AddThenRemove<H>(cfg: Config<H>, hook: H)
    requires hook !in cfg.hooks
    ensures RemoveHook(AddHook(cfg, hook), hook) == cfg
  {
    RemoveFirstAppend(cfg.hooks, hook);
  }

  /**
   When the hook was already registered, removal takes the earlier
   registration, so adding and removing commute.
   */
  lemma AddRemoveCommute<H>(cfg: Config<H>, hook: H)
    requires hook in cfg.hooks
    ensures RemoveHook(AddHook(cfg, hook), hook) == AddHook(RemoveHook(cfg, hook), hook)
  {
    RemoveFirstAppend(cfg.hooks, hook);
  }

  lemma {:induction false} RemoveFirstAppend<T>(s: seq<T>, x: T)
    ensures RemoveFirst(s + [x], x) == if x in s then RemoveFirst(s, x) + [x] else s
    decreases |s|
  {
    if |s| == 0 {
      assert s + [x] == [x];
      assert RemoveFirst([x], x) == [];
    } else if s[0] == x {
      assert (s + [x])[1..] == s[1..] + [x];
      assert RemoveFirst(s + [x], x) == s[1..] + [x];
    } else {
      var t := s[1..];
      assert (s + [x])[1..] == t + [x];
      assert RemoveFirst(s + [x], x) == [s[0]] + RemoveFirst(t + [x], x);
      RemoveFirstAppend(t, x);
      if x in t {
        assert RemoveFirst(s, x) == [s[0]] + RemoveFirst(t, x);
      } else {
        assert x !in s;
        assert s == [s[0]] + t;
      }
    }
  }

  // ---------------------------------------------------------------------------
  // The hook chain
  // ---------------------------------------------------------------------------

  /** How the hook chain ended: every hook let the record through, or hook `at` nulled it. */
  datatype Verdict = Passed(info: LogInfo) | Suppressed(at: nat)

  /**
   The `for` loop over the hooks: each hook sees the record as the previous
   ones left it, and the first that leaves `msg` null ends `print`.
   */
  function RunHooks<H>(hooks: seq<H>, apply: (H, LogInfo) -> LogInfo, info: LogInfo): (v: Verdict)
    ensures v.Suppressed? ==> v.at < |hooks|
    decreases |hooks|
  {
    if |hooks| == 0 then Passed(info)
    else
      var next := apply(hooks[0], info);
      if next.msg.None? then Suppressed(0)
      else
        match RunHooks(hooks[1..], apply, next)
        case Passed(last) => Passed(last)
        case Suppressed(k) => Suppressed(k + 1)
  }

  /** Reference reading of the chain: run all the hooks in order, never stopping. */
  function Fold<H>(hooks: seq<H>, apply: (H, LogInfo) -> LogInfo, info: LogInfo): LogInfo
    decreases |hooks|
  {
    if |hooks| == 0 then info else Fold(hooks[1..], apply, apply(hooks[0], info))
  }

  /** The record as the first `n` hooks leave it. */
  function After<H>(hooks: seq<H>, apply: (H, LogInfo) -> LogInfo, info: LogInfo, n: nat): LogInfo
    requires n <= |hooks|
  {
    Fold(hooks[..n], apply, info)
  }

  /** Running `n` hooks is running the first, then the other `n - 1` on its result. */
  lemma AfterTail<H>(hooks: seq<H>, apply: (H, LogInfo) -> LogInfo, info: LogInfo, n: nat)
    requires 1 <= n <= |hooks|
    ensures After(hooks, apply, info, n) == After(hooks[1..], apply, apply(hooks[0], info), n - 1)
  {
    assert hooks[..n][1..] == hooks[1..][..n - 1];
  }

  /**
   The chain stops at the FIRST hook that nulls the message, counting in list
   order; if none does, the record that comes out is the one all the hooks
   produced in turn.
   */
  lemma {:induction false} RunHooksFirstSuppressor<H>(hooks: seq<H>, apply: (H, LogInfo) -> LogInfo, info: LogInfo)
    ensures RunHooks(hooks, apply, info).Suppressed? ==>
      var k := RunHooks(hooks, apply, info).at;
      && After(hooks, apply, info, k + 1).msg.None?
      && forall n :: 1 <= n <= k ==> After(hooks, apply, info, n).msg.Some?
    ensures RunHooks(hooks, apply, info).Passed? ==>
      && RunHooks(hooks, apply, info).info == After(hooks, apply, info, |hooks|)
      && forall n :: 1 <= n <= |hooks| ==> After(hooks, apply, info, n).msg.Some?
    decreases |hooks|
  {
    if |hooks| == 0 {
      assert hooks[..0] == hooks;
    } else {
      var next := apply(hooks[0], info);
      AfterTail(hooks, apply, info, 1);
      assert hooks[1..][..0] == [];
      if next.msg.Some? {
        RunHooksFirstSuppressor(hooks[1..], apply, next);
        forall n | 1 <= n <= |hooks|
          ensures After(hooks, apply, info, n) == After(hooks[1..], apply, next, n - 1)
        {
          AfterTail(hooks, apply, info, n);
        }
        if RunHooks(hooks, apply, info).Passed? {
          assert hooks[1..][..|hooks| - 1] == hooks[1..];
        }
      }
    }
  }

  /**
   Hooks registered after the one that suppresses are never consulted: the
   chain over a longer list decides the same way, and when the first part lets
   the record through, the rest of the chain continues from that record.
   */
  lemma {:induction false} RunHooksAppend<H>(first: seq<H>, rest: seq<H>, apply: (H, LogInfo) -> LogInfo, info: LogInfo)
    ensures RunHooks(first, apply, info).Suppressed? ==>
      RunHooks(first + rest, apply, info) == RunHooks(first, apply, info)
    ensures RunHooks(first, apply, info).Passed? ==>
      RunHooks(first + rest, apply, info) ==
        match RunHooks(rest, apply, RunHooks(first, apply, info).info)
        case Passed(last) => Passed(last)
        case Suppressed(k) => Suppressed(|first| + k)
    decreases |first|
  {
    if |first| == 0 {
      assert first + rest == rest;
    } else {
      assert (first + rest)[1..] == first[1..] + rest;
      var next := apply(first[0], info);
      if next.msg.Some? {
        RunHooksAppend(first[1..], rest, apply, next);
      }
    }
  }

  // ---------------------------------------------------------------------------
  // Location suffix and tag substitution
  // ---------------------------------------------------------------------------

  /**
   The trace step's result: the final message text and tag, or the
   `NullPointerException` Kotlin's null check raises when the tag "Logger" is to
   be replaced by a file name that is null.
   */
  datatype Decorated = Decorated(text: string, tag: string) | NullFileName

  /** The caller frame the trace step uses, when tracing is on and there is one. */
  function CallerFrame(traceEnabled: bool, occurred: Option<Occurrence>): Option<Frame>
  {
    if traceEnabled && occurred.Some? then occurred.value.caller else None
  }

  /** A possibly-null file name as a Kotlin string template writes it. */
  function FileNameText(fileName: Option<string>): string
  {
    if fileName.Some? then fileName.value else "null"
  }

  /**
   ` ...(File.kt:42)`: the file name between ` ...(` and `:`, then the line
   number, which reads back as the frame's own line number.
   */
  function LocationSuffix(frame: Frame): (suffix: string)
    ensures var name := FileNameText(frame.fileName);
      && |suffix| == |name| + |IntToDecimal(frame.lineNumber)| + 7
      && suffix[..5] == " ...(" && suffix[5..5 + |name|] == name && suffix[5 + |name|] == ':'
      && suffix[|suffix| - 1] == ')'
      && suffix[6 + |name|..|suffix| - 1] == IntToDecimal(frame.lineNumber)
      && ParseInt(suffix[6 + |name|..|suffix| - 1]) == frame.lineNumber
  {
    var name := FileNameText(frame.fileName);
    var line := IntToDecimal(frame.lineNumber);
    IntDecimalRoundTrip(frame.lineNumber);
    var suffix := " ...(" + name + ":" + line + ")";
    assert suffix[5..5 + |name|] == name;
    assert suffix[6 + |name|..|suffix| - 1] == line;
    suffix
  }

  /**
   The trace step: with a caller frame, the location is appended and the tag
   "Logger" (and no other) is replaced by the caller's file name up to its
   first dot, which fails when that file name is null; without a caller frame,
   text and tag are left alone.
   */
  function Decorate(traceEnabled: bool, occurred: Option<Occurrence>, message: string, tag: string): (d: Decorated)
    ensures d.NullFileName? <==>
      && CallerFrame(traceEnabled, occurred).Some?
      && CallerFrame(traceEnabled, occurred).value.fileName.None?
      && tag == SentinelTag
    ensures d.Decorated? ==> message <= d.text
    ensures d.Decorated? ==> (d.text == message <==> CallerFrame(traceEnabled, occurred).None?)
    ensures d.Decorated? && CallerFrame(traceEnabled, occurred).Some? ==>
      d.text[|message|..] == LocationSuffix(CallerFrame(traceEnabled, occurred).value)
    ensures d.Decorated? && d.tag != tag ==> tag == SentinelTag && CallerFrame(traceEnabled, occurred).Some?
    ensures d.Decorated? && CallerFrame(traceEnabled, occurred).Some? && tag == SentinelTag ==>
      && CallerFrame(traceEnabled, occurred).value.fileName.Some?
      && d.tag == SubstringBefore(CallerFrame(traceEnabled, occurred).value.fileName.value, '.')
  {
    match CallerFrame(traceEnabled, occurred)
    case None => Decorated(message, tag)
    case Some(frame) =>
      var text := message + LocationSuffix(frame);
      assert text[|message|..] == LocationSuffix(frame);
      if tag != SentinelTag then Decorated(text, tag)
      else
        match frame.fileName
        case None => NullFileName
        case Some(name) => Decorated(text, SubstringBefore(name, '.'))
  }

  /** A file name `base.ext` whose base has no dot yields the tag `base`. */
  lemma BaseNameTag(base: string, ext: string)
    requires '.' !in base
    ensures SubstringBefore(base + "." + ext, '.') == base
  {
    var file := base + "." + ext;
    var r := SubstringBefore(file, '.');
    assert file[|base|] == '.';
    assert r == file[..|r|];
    assert file[..|base|] == base;
  }

  /**
   A call from line 42 of `MainActivity.kt` with the tag "Logger" is emitted
   under the tag "MainActivity" with the location appended; any other tag is kept.
   */
  lemma DecorateExample(message: string, tag: string)
    ensures Decorate(true, Some(Occurrence(Some(Frame(Some("MainActivity.kt"), 42)))), message, tag) ==
      Decorated(message + LocationSuffix(Frame(Some("MainActivity.kt"), 42)), if tag == SentinelTag then "MainActivity" else tag)
    ensures IntToDecimal(42) == "42"
  {
    assert NatToDecimal(42) == "42";
    assert "MainActivity" + "." + "kt" == "MainActivity.kt";
    BaseNameTag("MainActivity", "kt");
  }

  // ---------------------------------------------------------------------------
  // print
  // ---------------------------------------------------------------------------

  /** The platform calls for the pieces of one message, in order: `log` once per piece. */
  function Emit(level: Level, tag: string, tr: Option<Throwable>, pieces: seq<string>): (out: seq<Emission>)
    ensures |out| == |pieces|
    ensures forall i :: 0 <= i < |out| ==> out[i] == Emission(SinkFor(level), tag, pieces[i], tr)
    decreases |pieces|
  {
    if |pieces| == 0 then []
    else [Emission(SinkFor(level), tag, pieces[0], tr)] + Emit(level, tag, tr, pieces[1..])
  }

  /** The texts of a run of platform calls. */
  function Texts(out: seq<Emission>): (texts: seq<string>)
    ensures |texts| == |out|
    ensures forall i :: 0 <= i < |out| ==> texts[i] == out[i].text
  {
    seq(|out|, i requires 0 <= i < |out| => out[i].text)
  }

  /** The record the hooks are handed: the call's own message and tag. */
  function InfoOf(call: Call): LogInfo
  {
    LogInfo(call.level, call.msg, call.tag, call.tr, call.occurred)
  }

  /** The message and tag the trace step turns a call into. */
  function DecorateCall<H>(cfg: Config<H>, call: Call): Decorated
    requires call.msg.Some?
  {
    Decorate(cfg.traceEnabled, call.occurred, call.msg.value, call.tag)
  }

  /** What one `print` does: the platform calls it made, or the exception it threw. */
  datatype Printed = Emitted(calls: seq<Emission>) | NullPointer

  /**
   `print`: the global switch and null check, the hook chain, the trace step,
   and the split into platform calls. The text and tag emitted are computed
   from the call alone; the hooks decide only whether anything is emitted.
   */
  function Print<H>(cfg: Config<H>, apply: (H, LogInfo) -> LogInfo, call: Call): (out: Printed)
    ensures out == Emitted([]) <==>
      !cfg.enabled || call.msg.None? || RunHooks(cfg.hooks, apply, InfoOf(call)).Suppressed?
    ensures out.NullPointer? <==>
      && cfg.enabled && call.msg.Some? && RunHooks(cfg.hooks, apply, InfoOf(call)).Passed?
      && DecorateCall(cfg, call).NullFileName?
    ensures out.Emitted? ==> forall i :: 0 <= i < |out.calls| ==>
      && out.calls[i].sink == SinkFor(call.level) && out.calls[i].tr == call.tr
      && |out.calls[i].text| <= MaxChunk
    ensures out.Emitted? && out.calls != [] ==>
      && call.msg.Some? && DecorateCall(cfg, call).Decorated?
      && Concat(Texts(out.calls)) == DecorateCall(cfg, call).text
      && forall i :: 0 <= i < |out.calls| ==> out.calls[i].tag == DecorateCall(cfg, call).tag
  {
    if !cfg.enabled || call.msg.None? then Emitted([])
    else if RunHooks(cfg.hooks, apply, InfoOf(call)).Suppressed? then Emitted([])
    else
      match DecorateCall(cfg, call)
      case NullFileName => NullPointer
      case Decorated(text, tag) =>
        SplitFacts(text);
        var calls := Emit(call.level, tag, call.tr, Split(text));
        assert Texts(calls) == Split(text);
        Emitted(calls)
  }

  /**
   Whatever hooks are registered and whatever they do to the record, `print`
   either emits nothing or does exactly what it would with no hooks at all.
   */
  lemma HooksOnlySuppress<H>(cfg: Config<H>, apply: (H, LogInfo) -> LogInfo, call: Call)
    ensures Print(cfg, apply, call) == Emitted([]) || Print(cfg, apply, call) == Print(cfg.(hooks := []), apply, call)
  {
  }

  /**
   Whatever is emitted is the decorated message cut into pieces: every piece
   but the last exactly `MaxChunk` long, one piece for a message that fits and
   ceil(length / 3800) of them for a longer one.
   */
  lemma PrintReassembles<H>(cfg: Config<H>, apply: (H, LogInfo) -> LogInfo, call: Call)
    requires Print(cfg, apply, call).Emitted? && Print(cfg, apply, call).calls != []
    ensures call.msg.Some? && DecorateCall(cfg, call).Decorated?
    ensures var out := Print(cfg, apply, call).calls;
      && (forall i :: 0 <= i < |out| - 1 ==> |out[i].text| == MaxChunk)
      && |out| == if |DecorateCall(cfg, call).text| <= MaxChunk then 1 else CeilDiv(|DecorateCall(cfg, call).text|, MaxChunk)
  {
    var d := DecorateCall(cfg, call);
    var out := Print(cfg, apply, call).calls;
    SplitFacts(d.text);
    assert Texts(out) == Split(d.text);
  }

  /** A final message within the budget goes out once, whole and unchanged. */
  lemma PrintShortMessage<H>(cfg: Config<H>, apply: (H, LogInfo) -> LogInfo, call: Call)
    requires cfg.enabled && call.msg.Some? && RunHooks(cfg.hooks, apply, InfoOf(call)).Passed?
    requires DecorateCall(cfg, call).Decorated? && |DecorateCall(cfg, call).text| <= MaxChunk
    ensures Print(cfg, apply, call) ==
      Emitted([Emission(SinkFor(call.level), DecorateCall(cfg, call).tag, DecorateCall(cfg, call).text, call.tr)])
  {
  }

  /**
   A caller frame without a file name still yields ` ...(null:line)` under any
   tag but "Logger"; under "Logger", `print` throws instead of emitting.
   */
  lemma PrintNullFileName<H>(cfg: Config<H>, apply: (H, LogInfo) -> LogInfo, level: Level, msg: string,
                             tag: string, tr: Option<Throwable>, line: int)
    requires cfg.enabled && cfg.traceEnabled
    requires RunHooks(cfg.hooks, apply, InfoOf(Call(level, Some(msg), tag, tr, Some(Occurrence(Some(Frame(None, line))))))).Passed?
    ensures var out := Print(cfg, apply, Call(level, Some(msg), tag, tr, Some(Occurrence(Some(Frame(None, line))))));
      && (tag == SentinelTag <==> out.NullPointer?)
      && (tag != SentinelTag ==> out.Emitted? && Concat(Texts(out.calls)) == msg + LocationSuffix(Frame(None, line)))
  {
  }

  // ---------------------------------------------------------------------------
  // The level entry points
  // ---------------------------------------------------------------------------

  /** The `tag` default argument: the configured tag at the time of the call. */
  function ResolveTag<H>(cfg: Config<H>, tag: Option<string>): string
  {
    if tag.Some? then tag.value else cfg.tag
  }

  /**
   `v`, `d`, `i`, `w`, `e` and `wtf`: each forwards its arguments to `print`
   with its own level. An absent `tag` stands for the default argument.
   */
  function Log<H>(cfg: Config<H>, apply: (H, LogInfo) -> LogInfo, level: Level, msg: Option<string>,
                  tag: Option<string>, tr: Option<Throwable>, occurred: Option<Occurrence>): (out: Printed)
    ensures out.Emitted? ==> forall i :: 0 <= i < |out.calls| ==> out.calls[i].sink == SinkFor(level) && out.calls[i].tr == tr
    ensures ResolveTag(cfg, tag) != SentinelTag ==>
      out.Emitted? && forall i :: 0 <= i < |out.calls| ==> out.calls[i].tag == ResolveTag(cfg, tag)
    ensures out.Emitted? && out.calls != [] && CallerFrame(cfg.traceEnabled, occurred).None? ==>
      msg.Some? && Concat(Texts(out.calls)) == msg.value
  {
    Print(cfg, apply, Call(level, msg, ResolveTag(cfg, tag), tr, occurred))
  }

  /**
   The `e(tr, tag, occurred, msg)` overload: an error logged for its throwable,
   with the message defaulting to the empty string.
   */
  function ErrorOf<H>(cfg: Config<H>, apply: (H, LogInfo) -> LogInfo, tr: Option<Throwable>,
                      tag: Option<string>, occurred: Option<Occurrence>, msg: Option<string>): (out: Printed)
    ensures out.Emitted? ==> forall i :: 0 <= i < |out.calls| ==> out.calls[i].sink == LogE && out.calls[i].tr == tr
  {
    var out := Log(cfg, apply, Error, msg, tag, tr, occurred);
    assert SinkFor(Error) == LogE;
    out
  }

  /** After `setDebug(false, …)` no entry point emits anything, whatever the call. */
  lemma SetDebugDisables<H>(cfg: Config<H>, newTag: Option<string>, apply: (H, LogInfo) -> LogInfo, level: Level,
                            msg: Option<string>, tag: Option<string>, tr: Option<Throwable>, occurred: Option<Occurrence>)
    ensures Log(SetDebug(cfg, false, newTag), apply, level, msg, tag, tr, occurred) == Emitted([])
  {
  }

  /**
   After `setDebug(enabled, t)` with `t` other than "Logger", a call that leaves
   the tag to its default is emitted under `t`, never under a file name.
   */
  lemma SetDebugDefaultTag<H>(cfg: Config<H>, enabled: bool, t: string, apply: (H, LogInfo) -> LogInfo, level: Level,
                              msg: Option<string>, tr: Option<Throwable>, occurred: Option<Occurrence>)
    requires t != SentinelTag
    ensures var out := Log(SetDebug(cfg, enabled, Some(t)), apply, level, msg, None, tr, occurred);
      out.Emitted? && forall i :: 0 <= i < |out.calls| ==> out.calls[i].tag == t
  {
  }

  /**
   The out-of-the-box behaviour: with the initial configuration, a call that
   leaves the tag to its default, made from line `line` of `base.kt`, goes out
   under the tag `base`, with the location appended to its message.
   */
  lemma InitialFileTag<H>(apply: (H, LogInfo) -> LogInfo, level: Level, msg: string, tr: Option<Throwable>,
                          base: string, line: int)
    requires '.' !in base
    ensures var frame := Frame(Some(base + ".kt"), line);
      var out := Log(Initial<H>(), apply, level, Some(msg), None, tr, Some(Occurrence(Some(frame))));
      && out.Emitted? && out.calls != []
      && Concat(Texts(out.calls)) == msg + LocationSuffix(frame)
      && forall i :: 0 <= i < |out.calls| ==> out.calls[i].tag == base
  {
  }
}

=== FILE: log_json.dfy ===
/**
 `LogCat.json`: the message it builds around a JSON document and hands to
 `print`. Parsing and pretty-printing belong to `org.json` and are given as a
 parameter: only the kind of value the tokenizer produced, and its rendering,
 matter here.
 */
module LogJson {
  import opened Optional
  import opened Text
  import opened LogCat

  /**
   What `JSONTokener.nextValue()` yields for the text: an object or an array
   (with its 2-space indented rendering), any other value (with its
   `toString()`), or an exception. `Unrenderable` is an object or array the
   tokenizer accepted but whose `toString(2)` throws, as `org.json` does for
   an array holding a non-finite number such as `[NaN]`.
   */
  datatype Parsed =
    | JsonObject(indented: string)
    | JsonArray(indented: string)
    | Scalar(text: string)
    | Unparseable
    | Unrenderable

  /**
   What one `json` call does: hand a text to `print` (which emits or throws),
   or throw while rendering the document, before `print` is reached.
   */
  datatype JsonOutcome = Logged(printed: Printed) | RenderError

  /** The placeholder body when the tokenizer throws. */
  const ParseErrorText: string := "Parse json error"

  /** Whether the rendering step after the tokenizer completes: it throws only for `Unrenderable`. */
  predicate Renders(parse: string -> Parsed, json: string)
  {
    IsBlank(json) || !parse(json).Unrenderable?
  }

  /** The body printed for a parsed document that renders. */
  function Body(p: Parsed): string
    requires !p.Unrenderable?
  {
    match p
    case JsonObject(indented) => indented
    case JsonArray(indented) => indented
    case Scalar(text) => text
    case Unparseable => ParseErrorText
  }

  /** ` (File.kt:42)`: the location as `json` writes it; a null file name is written "null". */
  function JsonLocation(frame: Frame): string
  {
    " (" + FileNameText(frame.fileName) + ":" + IntToDecimal(frame.lineNumber) + ")"
  }

  /**
   `occurredMsg`: the caller location when tracing is on and a marker is given;
   Kotlin's string template writes a missing caller frame as the text "null";
   with tracing off or no marker it is empty.
   */
  function OccurredMsg(traceEnabled: bool, occurred: Option<Occurrence>): (m: string)
    ensures m == "" <==> !traceEnabled || occurred.None?
    ensures CallerFrame(traceEnabled, occurred).Some? ==> m == JsonLocation(CallerFrame(traceEnabled, occurred).value)
    ensures traceEnabled && occurred == Some(Occurrence(None)) ==> m == "null"
  {
    if traceEnabled && occurred.Some? then
      match occurred.value.caller
      case Some(frame) => JsonLocation(frame)
      case None => "null"
    else ""
  }

  /**
   The text `json` hands to `print`: the caller's `msg`, the location, a line
   break, then the document itself when it is blank or its rendering otherwise.
   */
  function JsonText(traceEnabled: bool, parse: string -> Parsed, json: string, msg: string, occurred: Option<Occurrence>): (text: string)
    requires Renders(parse, json)
    ensures msg + OccurredMsg(traceEnabled, occurred) + "\n" <= text
    ensures text[|msg| + |OccurredMsg(traceEnabled, occurred)| + 1..] == if IsBlank(json) then json else Body(parse(json))
  {
    var head := msg + OccurredMsg(traceEnabled, occurred) + "\n";
    var text := head + (if IsBlank(json) then json else Body(parse(json)));
    assert text[|head|..] == if IsBlank(json) then json else Body(parse(json));
    text
  }

  /**
   `json`: nothing when logging is off or the document is null; an exception
   when the tokenizer's object or array cannot be rendered (the rendering is
   outside the `try`); otherwise one `print` of the composed text, passing no
   throwable and no marker, so that `print` adds no second location,
   substitutes no tag and cannot throw.
   */
  function Json<H>(cfg: Config<H>, apply: (H, LogInfo) -> LogInfo, parse: string -> Parsed,
                   json: Option<string>, tag: Option<string>, msg: string, level: Level,
                   occurred: Option<Occurrence>): (out: JsonOutcome)
    ensures out.RenderError? <==> cfg.enabled && json.Some? && !Renders(parse, json.value)
    ensures out.Logged? ==> out.printed.Emitted?
    ensures !cfg.enabled || json.None? ==> out == Logged(Emitted([]))
    ensures out.Logged? ==> forall i :: 0 <= i < |out.printed.calls| ==>
      && out.printed.calls[i].sink == SinkFor(level)
      && out.printed.calls[i].tr == None
      && out.printed.calls[i].tag == ResolveTag(cfg, tag)
    ensures out.Logged? && out.printed.calls != [] ==>
      json.Some? && Renders(parse, json.value) &&
      Concat(Texts(out.printed.calls)) == JsonText(cfg.traceEnabled, parse, json.value, msg, occurred)
  {
    if !cfg.enabled || json.None? then Logged(Emitted([]))
    else if !Renders(parse, json.value) then RenderError
    else Logged(Print(cfg, apply, Call(level, Some(JsonText(cfg.traceEnabled, parse, json.value, msg, occurred)), ResolveTag(cfg, tag), None, None)))
  }

  /**
   What `json` emits is exactly what `print` emits for the composed text with
   tracing switched off: the location is the one `json` computed, never a
   second one.
   */
  lemma JsonIsUntracedPrint<H>(cfg: Config<H>, apply: (H, LogInfo) -> LogInfo, parse: string -> Parsed,
                               json: string, tag: Option<string>, msg: string, level: Level,
                               occurred: Option<Occurrence>)
    requires Renders(parse, json)
    ensures Json(cfg, apply, parse, Some(json), tag, msg, level, occurred) ==
      Logged(Print(cfg.(traceEnabled := false), apply,
                   Call(level, Some(JsonText(cfg.traceEnabled, parse, json, msg, occurred)), ResolveTag(cfg, tag), None, None)))
  {
  }

  /** A document the tokenizer rejects is logged with the placeholder body. */
  lemma JsonParseError<H>(cfg: Config<H>, apply: (H, LogInfo) -> LogInfo, parse: string -> Parsed,
                          json: string, tag: Option<string>, msg: string, level: Level, occurred: Option<Occurrence>)
    requires !IsBlank(json) && parse(json) == Unparseable
    requires Json(cfg, apply, parse, Some(json), tag, msg, level, occurred) != Logged(Emitted([]))
    ensures Concat(Texts(Json(cfg, apply, parse, Some(json), tag, msg, level, occurred).printed.calls)) ==
      msg + OccurredMsg(cfg.traceEnabled, occurred) + "\n" + ParseErrorText
  {
  }

  /** A blank document is never parsed: the tokenizer's answer cannot change the output. */
  lemma JsonBlankSkipsParser<H>(cfg: Config<H>, apply: (H, LogInfo) -> LogInfo, parse1: string -> Parsed,
                                parse2: string -> Parsed, json: string, tag: Option<string>, msg: string,
                                level: Level, occurred: Option<Occurrence>)
    requires IsBlank(json)
    ensures Json(cfg, apply, parse1, Some(json), tag, msg, level, occurred) ==
      Json(cfg, apply, parse2, Some(json), tag, msg, level, occurred)
  {
  }

  /**
   With tracing on and a marker whose stack has no caller frame, the composed
   text carries the word "null" between `msg` and the line break.
   */
  lemma JsonMissingFrameQuirk<H>(cfg: Config<H>, apply: (H, LogInfo) -> LogInfo, parse: string -> Parsed,
                                 json: string, tag: Option<string>, msg: string, level: Level)
    requires cfg.traceEnabled
    requires Json(cfg, apply, parse, Some(json), tag, msg, level, Some(Occurrence(None))).Logged?
    requires Json(cfg, apply, parse, Some(json), tag, msg, level, Some(Occurrence(None))).printed.calls != []
    ensures msg + "null\n" <= Concat(Texts(Json(cfg, apply, parse, Some(json), tag, msg, level, Some(Occurrence(None))).printed.calls))
  {
  }
}

=== FILE: optional.dfy ===
/** Kotlin's nullable types (`T?`) as an explicit option. */
module Optional {

  /** `None` plays the part of Kotlin's `null`. */
  datatype Option<+T> = None | Some(value: T)
}

=== FILE: text.dfy ===
/**
 The few pieces of Kotlin's string library that the logger relies on:
 joining chunks back together, `Int.toString()`, `String.substringBefore(Char)`
 and `CharSequence.isBlank()`. A Dafny `char` is a Unicode scalar value, while a
 Kotlin `Char` is a UTF-16 code unit; the two agree, one for one, on text whose
 characters are all at or below U+FFFF, which is the text this model covers.
 */
module Text {

  /** The strings of `parts`, joined in order. */
  function Concat(parts: seq<string>): string
  {
    if |parts| == 0 then [] else parts[0] + Concat(parts[1..])
  }

  // ---------------------------------------------------------------------------
  // Int.toString(): the line number in a location suffix
  // ---------------------------------------------------------------------------

  predicate IsDigit(c: char)
  {
    '0' <= c <= '9'
  }

  predicate AllDigits(s: string)
  {
    forall i :: 0 <= i < |s| ==> IsDigit(s[i])
  }

  function DigitChar(d: nat): (c: char)
    requires d < 10
    ensures IsDigit(c)
  {
    "0123456789"[d]
  }

  function DigitValue(c: char): (d: nat)
    requires IsDigit(c)
    ensures d < 10
  {
    c as int - '0' as int
  }

  /** Decimal digits of a natural number, most significant first, no leading zero. */
  function NatToDecimal(n: nat): (s: string)
    ensures |s| >= 1 && AllDigits(s)
    ensures s[0] == '0' ==> n == 0 && |s| == 1
    decreases n
  {
    if n < 10 then [DigitChar(n)] else NatToDecimal(n / 10) + [DigitChar(n % 10)]
  }

  /** The value of a run of decimal digits (the reference reading of a decimal string). */
  function DecimalValue(s: string): nat
    requires AllDigits(s)
    decreases |s|
  {
    if |s| == 0 then 0 else 10 * DecimalValue(s[..|s| - 1]) + DigitValue(s[|s| - 1])
  }

  /** Kotlin's `Int.toString()`: an optional minus sign, then the digits of the magnitude. */
  function IntToDecimal(n: int): (s: string)
    ensures |s| >= 1
    ensures s[0] == '-' <==> n < 0
    ensures n < 0 ==> |s| >= 2 && AllDigits(s[1..])
    ensures n >= 0 ==> AllDigits(s)
    ensures var digits := if n < 0 then s[1..] else s; digits[0] == '0' ==> |digits| == 1
  {
    if n < 0 then "-" + NatToDecimal(-n) else NatToDecimal(n)
  }

  /** Reads back what `IntToDecimal` writes. */
  function ParseInt(s: string): int
    requires |s| >= 1
    requires if s[0] == '-' then AllDigits(s[1..]) else AllDigits(s)
  {
    if s[0] == '-' then var magnitude: int := DecimalValue(s[1..]); -magnitude
    else DecimalValue(s)
  }

  lemma {:induction false} NatDecimalRoundTrip(n: nat)
    ensures DecimalValue(NatToDecimal(n)) == n
    decreases n
  {
    var s := NatToDecimal(n);
    if n >= 10 {
      NatDecimalRoundTrip(n / 10);
      assert s[..|s| - 1] == NatToDecimal(n / 10);
    }
  }

  /** The rendered line number determines the line number: no two lines print alike. */
  lemma {:induction false} IntDecimalRoundTrip(n: int)
    ensures ParseInt(IntToDecimal(n)) == n
  {
    var s := IntToDecimal(n);
    if n < 0 {
      var digits := NatToDecimal(-n);
      assert s == "-" + digits;
      assert s[1..] == digits;
      NatDecimalRoundTrip(-n);
    } else {
      NatDecimalRoundTrip(n);
    }
  }

  // ---------------------------------------------------------------------------
  // String.substringBefore(delimiter: Char)
  // ---------------------------------------------------------------------------

  /**
   The part of `s` before the first `delimiter`, or all of `s` when the
   delimiter does not occur (Kotlin's default `missingDelimiterValue`).
   */
  function SubstringBefore(s: string, delimiter: char): (r: string)
    ensures r <= s
    ensures delimiter !in r
    ensures r == s || (|r| < |s| && s[|r|] == delimiter)
    decreases |s|
  {
    if |s| == 0 then s
    else if s[0] == delimiter then ""
    else [s[0]] + SubstringBefore(s[1..], delimiter)
  }

  // ---------------------------------------------------------------------------
  // CharSequence.isBlank()
  // ---------------------------------------------------------------------------

  /**
   Kotlin's `Char.isWhitespace()` on the JVM: Java's `Character.isWhitespace`
   or `Character.isSpaceChar`, that is, the controls U+0009..U+000D and
   U+001C..U+001F and every space, line or paragraph separator.
   */
  predicate IsWhitespace(c: char)
  {
    var k := c as int;
    || 0x09 <= k <= 0x0D
    || 0x1C <= k <= 0x20
    || k == 0xA0
    || k == 0x1680
    || 0x2000 <= k <= 0x200A
    || k == 0x2028 || k == 0x2029
    || k == 0x202F || k == 0x205F
    || k == 0x3000
  }

  /**
   The table above on characters where Java's two predicates disagree or that
   are easily mistaken: no-break spaces count, NEXT LINE and ZERO WIDTH SPACE
   do not.
   */
  lemma WhitespaceTable()
    ensures IsWhitespace(' ') && IsWhitespace('\t') && IsWhitespace('\n') && IsWhitespace('\r')
    ensures IsWhitespace('\U{00A0}') && IsWhitespace('\U{2007}') && IsWhitespace('\U{202F}')
    ensures IsWhitespace('\U{2028}') && IsWhitespace('\U{3000}') && IsWhitespace('\U{001F}')
    ensures !IsWhitespace('\U{0085}') && !IsWhitespace('\U{200B}') && !IsWhitespace('\U{0008}') && !IsWhitespace('a')
  {
  }

  /** `isBlank()`: empty or made only of whitespace, checked one character at a time. */
  function IsBlank(s: string): (blank: bool)
    ensures blank <==> forall i :: 0 <= i < |s| ==> IsWhitespace(s[i])
    decreases |s|
  {
    if |s| == 0 then true
    else
      var rest := IsBlank(s[1..]);
      assert forall i :: 1 <= i < |s| ==> s[i] == s[1..][i - 1];
      IsWhitespace(s[0]) && rest
  }
}
